=== FILE: README.md ===
# My-Friends errand marketplace: authentication and task workflow

A Dafny model of the core of the My-Friends Express server (`app.js`). The
server pairs *requesters*, who post errands, with *helpers*, who run them.
Users log in with a one-time code, which the server prints to its console in place of an SMS.

The model is one abstract server state:

- `users : seq<User>` and `tasks : seq<Task>`: the two persisted JSON arrays.
- `sessions : map<Token, Option<UserId>>`: the in-memory session registry.
- `otps : map<Phone, Challenge>`: the in-memory registry of pending one-time codes.

Each challenge records why it was issued, either `ForLogin(userId)` or
`ForRegistration(role)`. Every route handler is a pure transition of that
state. The handler's inputs come in as parameters:

- the wall clock `now`, in milliseconds;
- the integer random draw behind the code;
- the new session token;
- the new user or task id;
- the ISO timestamps.

Modules:

- `Base`: `Option`, plus the array primitives `findIndex`/`find` (`FirstIndex`, `Find`) and `filter` (`Filter`).
- `Domain`: users, tasks, statuses, challenges and the state. Also the phone lookup and the task-id lookup.
- `Otp`: code generation (`generateOTP` and the decimal rendering of the number), issuing a challenge, and the four-way check. The check has four outcomes:
  - no challenge;
  - expired, which deletes the challenge;
  - wrong code, which keeps it;
  - accepted, which consumes it.
- `Sessions`: binding a token, `getCurrentUser`, and `/logout`.
- `Auth`: `/login`, `/verify-otp`, `/resend-otp`, `/register-verify-phone`, `/register-resend-otp`, `/register-verify-otp` and `/register`.
- `TaskLifecycle`: `/create-task`, `/accept-task`, the guard of `GET /payment/:taskId`, and `/process-payment`.
- `Queries`: `/available-tasks`, `/my-tasks`, `/my-accepted-tasks` and `/history`.
- `Server`: a `Request` datatype covering every state-changing route. `Apply` runs one request, resolving the session cookie first for the task routes, as `requireAuth` does. `Run` runs a sequence of requests. This module also holds the invariant proved for every reachable state.

Behaviour the model keeps because the code has it:

- `/process-payment` has no status check. It completes an open task, or re-pays a completed one, as long as the caller owns it. Only the payment page insists on `in-progress`.
- `/register` trusts the submitted `verified` field. Only the exact string `"true"` passes, and the OTP registry is never consulted.
- `/verify-otp` also accepts a registration challenge. It then binds the new session to the challenge's missing user id (`undefined`, modelled as `None`), and that session never resolves to a user.
- `/register-verify-otp` returns the role the request submitted, not the role stored with the challenge.
- `/register-resend-otp` does not check whether the phone is already taken.
- Costs are never checked for sign. `totalCost` is `itemCost + serviceFee`.
- A user whose role is neither literal falls into the helper branch of `/history`, and of the `/dashboard` summary, which is not modelled. Every other modelled role-guarded route refuses such a user.
- Lookups take the first match (`find`, `findIndex`), so duplicate ids are handled as the code handles them. A registration that reuses an earlier user's id logs in as that earlier user (`Auth.RegisterWithReusedIdLogsInAsEarlier`).

Timing and payment details of the code that are easy to misread:

- A resend sets `expires = now + 5 min`, so it opens a new five-minute window.
- Completing a payment is not restricted to in-progress tasks.
- `paidAt` and `completedAt` come from two separate clock reads, so they are two parameters.

## Model

| member | source | states |
|---|---|---|
| Base.FirstIndex | app.js:1374 | the index found holds a match and no earlier element does; None exactly when nothing matches |
| Base.Find | app.js:85 | the element found matches and no earlier element does; None exactly when nothing matches |
| Base.Filter | app.js:1312 | the result is a subsequence of the input, in the input's order, holding exactly the matching elements, each as often as in the input |
| Base.FilterConcat | app.js:1312 | filtering a concatenation gives the matches of the first part, in order, followed by those of the second |
| Base.FilterAppend | app.js:1214 | appending an element to the input appends it to the filtered result iff it matches |
| Domain.UserWithPhone | app.js:398 | the user found has the phone and is the first such user; None exactly when no user has the phone |
| Domain.TaskIndex | app.js:1374 | the first task with the id, or None exactly when no task has it |
| Otp.ToDecimal | app.js:69 | the rendering of a number is a non-empty string of decimal digits with no leading zero unless the number is below 10 |
| Otp.GenerateCode | app.js:68-70 | a code is six decimal digits, no leading zero, denoting 100000 + r, so it lies in [100000, 999999] |
| Otp.DecimalRoundTrip | app.js:69 | reading the rendered digits back gives the number |
| Otp.DecimalLength | app.js:69 | a number with k+1 digits renders as k+1 characters |
| Otp.GenerateCodeInjective | app.js:68-70 | different draws give different codes |
| Otp.Issue | app.js:428 | the phone's challenge is replaced by one with the new code and intent, expiring at now + 300000; other phones are untouched |
| Otp.Verify | app.js:499-584 | four outcomes, each an iff: no challenge; expired when now > expires, which deletes it; wrong code, which keeps it; accepted, which deletes it and returns the intent |
| Otp.AcceptedCodeCannotBeReplayed | app.js:580-584 | verifying an accepted code a second time finds no challenge |
| Otp.WrongGuessKeepsChallenge | app.js:552-578 | after a wrong guess the right code is still accepted up to the expiry instant |
| Otp.ExpiredChallengeIsCleared | app.js:526-528 | after an expiry is detected, even the right code finds no challenge |
| Otp.IssuedCodeWindow | app.js:428 | a freshly issued code is accepted up to and including now + 5 min and expired after |
| Otp.ReissueInvalidatesOldCode | app.js:601-602 | after re-issuing, a different earlier code submitted within the new five-minute window is a wrong code (after the window it is reported expired) |
| Sessions.Bind | app.js:582 | the token maps to the id; every other session is unchanged |
| Sessions.CurrentUser | app.js:80-88 | a user is returned only for a non-empty known token bound to that user's id; the user is the first with that id, as `users.find` returns; none exactly when the cookie is missing or empty, the token is unknown or unbound, or no user has the id |
| Sessions.Logout | app.js:1643-1650 | a present cookie's session is removed; nothing else changes |
| Sessions.LogoutEndsSession | app.js:1643-1650 | after logout the same cookie resolves to no user |
| Sessions.OpenedSessionResolves | app.js:80-88 | a non-empty token bound to the id of a registered user resolves to that user, when no other user carries that id |
| Sessions.UnboundSessionResolvesToNobody | app.js:80-88 | a session bound to no id never resolves to a user |
| Auth.BoundId | app.js:582 | a login challenge gives its user id; a registration challenge gives none |
| Auth.Login | app.js:394-428 | a code is issued iff some user has exactly that phone; it then replaces the phone's challenge with the six-digit code generated from the draw, for the first such user expiring at now + 300000; otherwise nothing changes |
| Auth.ResendOtp | app.js:590-602 | for a known phone, replaces exactly that phone's challenge with the code generated from the draw, bound to the first user with the phone and expiring at now + 300000; other challenges, users, tasks and sessions are unchanged; an unknown phone changes nothing |
| Auth.VerifyOtp | app.js:496-587 | the four outcomes as iffs. Not-found and wrong-code change nothing; expired removes the challenge only; accepted removes the challenge and adds exactly the session token -> bound id. Users and tasks never change |
| Auth.RegisterVerifyPhone | app.js:713-751 | refuses iff the phone is registered, changing nothing; otherwise issues a registration challenge carrying the role |
| Auth.RegisterResendOtp | app.js:818-833 | always issues a registration challenge, with no duplicate-phone check; other phones are untouched |
| Auth.RegisterVerifyOtp | app.js:836-907 | four outcomes, each an iff: verified when the code matches an unexpired challenge, handing back the submitted phone and role; no challenge; expired when now > expires; wrong code otherwise. Opens no session; deletes the challenge on success or expiry and keeps it on a wrong code |
| Auth.Register | app.js:967-1027 | Unverified iff verified is not "true"; refused iff the phone is taken; both change nothing. Otherwise appends exactly one user, opens a session for the new id, leaves tasks and OTPs alone, and keeps phones distinct |
| Auth.LoginThenVerify | app.js:394-587 | for a registered phone, the issued code entered within five minutes yields exactly one new session bound to that user and consumes the challenge |
| Auth.ResendThenVerify | app.js:590-602 | after `/resend-otp`, a different earlier code is a wrong code that changes nothing, and the re-issued code within five minutes logs in as the first user with the phone and consumes the challenge |
| Auth.RegisterPhoneThenVerify | app.js:713-907 | for a free phone, the registration code issued by `/register-verify-phone` verifies the phone up to now + 5 min and is reported expired after; either way the challenge is removed and nothing else changes |
| Auth.RegisterResendThenVerify | app.js:818-907 | after `/register-resend-otp`, even for a taken phone, an earlier code is a wrong code that keeps the challenge, and the re-issued code verifies the phone within five minutes |
| Auth.VerifyAddsOneSession | app.js:580-584 | with a fresh token, an accepted code grows the session registry by exactly one |
| Auth.VerifyOtpReplay | app.js:580-584 | replaying an accepted login reports no challenge and changes nothing |
| Auth.RegistrationChallengeOpensDeadSession | app.js:582 | a registration challenge accepted by /verify-otp opens a session that resolves to no user |
| Auth.RegisterIgnoresOtps | app.js:967-1027 | the outcome, users and sessions of /register do not depend on the OTP registry |
| Auth.RegisterWithoutOtp | app.js:971-975 | with no OTP ever issued, verified = "true" registers any free phone |
| Auth.RegisterWithReusedIdLogsInAsEarlier | app.js:1007-1023 | a registration reusing the first stored user's id still succeeds for a free phone, but its non-empty session token resolves to that earlier user, not to the new one |
| Auth.RegisterLogsIn | app.js:1021-1024 | after registering, a non-empty session token resolves to the new user, when no user already has the new id |
| TaskLifecycle.CreateTask | app.js:1183-1218 | a requester appends exactly one task: open, pending, no helper, payment or acceptance fields, total = item + fee, requester fields copied; existing tasks kept; other roles change nothing |
| TaskLifecycle.AcceptTask | app.js:1366-1385 | the state changes iff a helper targets an existing open task; only that task changes, to in-progress with the caller as helper and its terms kept |
| TaskLifecycle.PaymentPage | app.js:1448-1460 | the page is shown iff a requester owns a task with the id and the first such task is in progress; the task shown is that first owned match |
| TaskLifecycle.ProcessPayment | app.js:1553-1573 | when the caller owns the first task with the id, only that task changes: completed, paid, with the method and both timestamps, from any status, keeping costs and helper; otherwise nothing changes |
| TaskLifecycle.SecondAcceptIsNoOp | app.js:1374-1382 | of two accepts of one open task in sequence, the first sets the helper and the second changes nothing |
| TaskLifecycle.PaymentSkipsInProgressGuard | app.js:1448-1573 | for an open owned task the payment page refuses, yet /process-payment completes it |
| TaskLifecycle.ErrandScenario | app.js:1183-1573 | when no stored task already has the id, a requester's 80 + 40 errand gets total 120; after a helper accepts it and the requester pays in cash, it is completed, paid by "cash", with that helper |
| Queries.AvailableTasks | app.js:1305-1312 | only helpers get a list: exactly the open tasks, with multiplicity, in stored order |
| Queries.MyTasks | app.js:1221-1228 | only requesters get a list: exactly the tasks they posted, with multiplicity, in stored order |
| Queries.MyAcceptedTasks | app.js:1388-1395 | only helpers get a list: exactly the tasks assigned to them, with multiplicity, in stored order |
| Queries.History | app.js:1576-1586 | completed tasks the caller posted, as a requester, or is assigned, for any other role; with multiplicity, in stored order |
| Queries.CreatedTaskIsListed | app.js:1183-1218 | a new task is appended to its requester's list and to the available list |
| Queries.AcceptedTaskIsListed | app.js:1366-1395 | an accepted task is among the helper's accepted tasks and no longer available |
| Queries.PaidTaskIsInHistory | app.js:1553-1586 | a paid task appears in the requester's history |
| Queries.RequesterHistoryWithinMyTasks | app.js:1576-1586 | a requester's history is a sub-multiset of their task list |
| Server.FrameStep | app.js:394-1027 | routes that touch neither users nor tasks keep the invariant |
| Server.RegisterStep | app.js:967-1027 | registration keeps phones distinct and only appends users |
| Server.CreateTaskStep | app.js:1183-1218 | creation keeps the invariant and leaves existing tasks alone |
| Server.AcceptTaskStep | app.js:1366-1385 | accepting moves a task forward, from open to in-progress, and never replaces a helper |
| Server.ProcessPaymentStep | app.js:1553-1573 | payment moves a task forward to completed and paid, keeping its terms and helper |
| Server.EvolvesTransitive | app.js:1374-1570 | forward progress composes across steps |
| Server.Apply | app.js:90-97 | a task route whose cookie resolves to no user changes nothing, as `requireAuth` redirects; only `/register` can add a user, appending exactly the submitted one; only the task routes change tasks, adding at most one |
| Server.Run | app.js:394-1650 | across any request sequence users are only appended, and the task list grows by at most one per request |
| Server.RunAppend | app.js:394-1650 | serving two request sequences one after the other is serving their concatenation |
| Server.ApplyStep | app.js:394-1650 | every request keeps the invariant and only moves tasks forward |
| Server.InitialInv | app.js:35-43 | the empty start-up state satisfies the invariant |
| Server.RunStep | app.js:394-1650 | any request sequence keeps the invariant. Users and tasks are only appended. Each task's terms are frozen, its status rank never decreases, and its helper, once set, stays |
| Server.ReachableInv | app.js:35-1650 | every reachable state has distinct phones, total = item + fee, paid iff completed, never confirmed, no helper on open tasks, and a helper on in-progress ones |

## Left out

- HTML pages, the CSS string, navigation menus and every `res.send` body (app.js:99-314 and the page bodies): presentation only.
- `/select-role` (app.js:659-710) and the GET pages `/`, `/dashboard` and `/create-task`: they only render state.
- Express routing, middleware, redirects, and the listen/startup code. The redirect a route answers with is modelled as "no change", or as None for a listing.
- `requireAuth`: modelled only in `Server.Apply`, which resolves the cookie with `CurrentUser` before the task routes. The task and query functions take the resolved user.
- JSON file persistence (app.js:35-61): replaced by the in-memory `users` and `tasks` sequences. Read and write failures are not modelled.
- Console "SMS" logging: it is output only.
- `crypto.randomBytes` and `Math.random`: the session token and the integer draw `r < 900000` are parameters. Floating-point rounding of the draw is not modelled.
- `Date.now()` and `toISOString`: replaced by a `nat` clock and opaque timestamp strings.
- `Date.now()`-based ids: passed in, and never assumed unique. First-match lookups reproduce the code's handling of duplicates.
- `parseFloat`: costs are integers. NaN, fractions and float rounding are not modelled.
- Cookie header parsing, `setCookie` and `clearCookie` (app.js:14-24, app.js:72-78): the cookie is an `Option<Token>`, and an empty value counts as absent, as the `sessionId &&` test does. The 7-day cookie lifetime is advisory, and the server never enforces it.
- Missing form fields, which arrive as `undefined`: every body field is modelled as a string.
- The lost-update race between concurrent read-modify-write requests: requests are applied one at a time.
- Sessions.Bind: it overwrites an existing binding of the token. Token freshness, which the 32 random bytes make overwhelmingly likely, is assumed only where a count is stated (`Auth.VerifyAddsOneSession`).

=== FILE: auth.dfy ===
/** The identity flow: OTP login (`/login`, `/verify-otp`, `/resend-otp`)
    and registration (`/register-verify-phone`, `/register-resend-otp`,
    `/register-verify-otp`, `/register`). Each route is a transition of the
    whole state; the wall clock, the random draw behind the code, the fresh
    session token and the fresh user id are parameters. */
module Auth {
  import opened Base
  import opened Domain
  import opened Otp
  import opened Sessions

  /** A route's new state together with what it reports to the caller. */
  datatype Reply<O> = Reply(st: State, out: O)

  /** What the two OTP-issuing entry points report. */
  datatype StartOutcome = CodeSent(code: string) | UnknownPhone | PhoneTaken

  /** What `/register-verify-otp` hands back: on success, the phone and the role
      that the final registration form will carry. */
  datatype PhoneCheck = PhoneVerified(phone: Phone, role: Role) | PhoneNotVerified(check: Check)

  /** What `/register` reports. */
  datatype RegisterOutcome = Unverified | AlreadyRegistered | Registered(user: User)

  /** The user id a verified challenge binds a session to: a registration
      challenge has none. */
  function BoundId(intent: Intent): (r: Option<UserId>)
    ensures r.Some? <==> intent.ForLogin?
    ensures r.Some? ==> r.value == intent.userId
  {
    match intent
    case ForLogin(uid) => Some(uid)
    case ForRegistration(_) => None
  }

  /** `/login`: for a phone some user has, issues a fresh login challenge
      (replacing any pending one) bound to the first such user; otherwise
      reports the phone unknown and changes nothing. */
  function Login(st: State, phone: Phone, now: nat, draw: nat): (r: Reply<StartOutcome>)
    requires draw < CodeSpan
    ensures r.out.UnknownPhone? <==> forall u :: u in st.users ==> u.phone != phone
    ensures r.out.UnknownPhone? || r.out.CodeSent?
    ensures r.out.UnknownPhone? ==> r.st == st
    ensures r.out.CodeSent? ==>
              && r.out.code == GenerateCode(draw)
              && |r.out.code| == 6 && AllDigits(r.out.code)
              && CodeBase <= DecimalValue(r.out.code) <= 999999
              && exists i :: 0 <= i < |st.users| && st.users[i].phone == phone
                   && (forall j :: 0 <= j < i ==> st.users[j].phone != phone)
                   && r.st.otps == st.otps[phone := Challenge(r.out.code, now + LifetimeMs, ForLogin(st.users[i].id))]
    ensures r.st.users == st.users && r.st.tasks == st.tasks && r.st.sessions == st.sessions
  {
    match UserWithPhone(st.users, phone)
    case None => Reply(st, UnknownPhone)
    case Some(u) =>
      var code := GenerateCode(draw);
      Reply(st.(otps := Issue(st.otps, phone, code, ForLogin(u.id), now)), CodeSent(code))
  }

  /** `/resend-otp`: the same state change as `/login` (a redirect replaces the
      "unknown phone" page); the window restarts at `now`. */
  function ResendOtp(st: State, phone: Phone, now: nat, draw: nat): (r: State)
    requires draw < CodeSpan
    ensures (forall u :: u in st.users ==> u.phone != phone) ==> r == st
    ensures (exists u :: u in st.users && u.phone == phone) ==>
              exists i :: 0 <= i < |st.users| && st.users[i].phone == phone
                && (forall j :: 0 <= j < i ==> st.users[j].phone != phone)
                && r.otps == st.otps[phone := Challenge(GenerateCode(draw), now + LifetimeMs, ForLogin(st.users[i].id))]
    ensures r.users == st.users && r.tasks == st.tasks && r.sessions == st.sessions
  {
    Login(st, phone, now, draw).st
  }

  /** `/verify-otp`: checks the code; only an accepted code opens a session,
      bound to the challenge's user id, or to no id at all when the pending
      challenge was a registration challenge. Users and tasks never change. */
  function VerifyOtp(st: State, phone: Phone, otp: string, now: nat, token: Token): (r: Reply<Check>)
    ensures r.out.NoChallenge? <==> phone !in st.otps
    ensures r.out.Expired? <==> phone in st.otps && now > st.otps[phone].expires
    ensures r.out.WrongCode? <==> phone in st.otps && now <= st.otps[phone].expires && st.otps[phone].code != otp
    ensures r.out.Accepted? <==> phone in st.otps && now <= st.otps[phone].expires && st.otps[phone].code == otp
    ensures r.out.NoChallenge? || r.out.WrongCode? ==> r.st == st
    ensures r.out.Expired? ==> r.st == st.(otps := st.otps - {phone})
    ensures r.out.Accepted? ==>
              && r.out.intent == st.otps[phone].intent
              && r.st == st.(otps := st.otps - {phone}, sessions := st.sessions[token := BoundId(r.out.intent)])
  {
    var c := Verify(st.otps, phone, otp, now);
    var st1 := st.(otps := c.store);
    match c.result
    case Accepted(intent) => Reply(Bind(st1, token, BoundId(intent)), c.result)
    case _ => Reply(st1, c.result)
  }

  /** `/register-verify-phone`: refuses a phone that some user already has;
      otherwise issues a registration challenge carrying the chosen role. */
  function RegisterVerifyPhone(st: State, phone: Phone, role: Role, now: nat, draw: nat): (r: Reply<StartOutcome>)
    requires draw < CodeSpan
    ensures r.out.PhoneTaken? <==> exists u :: u in st.users && u.phone == phone
    ensures r.out.PhoneTaken? || r.out.CodeSent?
    ensures r.out.PhoneTaken? ==> r.st == st
    ensures r.out.CodeSent? ==>
              && r.out.code == GenerateCode(draw)
              && r.st == st.(otps := st.otps[phone := Challenge(r.out.code, now + LifetimeMs, ForRegistration(role))])
  {
    if UserWithPhone(st.users, phone).Some? then Reply(st, PhoneTaken)
    else
      var code := GenerateCode(draw);
      Reply(st.(otps := Issue(st.otps, phone, code, ForRegistration(role), now)), CodeSent(code))
  }

  /** `/register-resend-otp`: always issues a registration challenge; unlike
      `/register-verify-phone` it does not check whether the phone is taken. */
  function RegisterResendOtp(st: State, phone: Phone, role: Role, now: nat, draw: nat): (r: Reply<StartOutcome>)
    requires draw < CodeSpan
    ensures r.out == CodeSent(GenerateCode(draw))
    ensures r.st.otps.Keys == st.otps.Keys + {phone}
    ensures r.st.otps[phone] == Challenge(r.out.code, now + LifetimeMs, ForRegistration(role))
    ensures forall p :: p in st.otps && p != phone ==> r.st.otps[p] == st.otps[p]
    ensures r.st.users == st.users && r.st.tasks == st.tasks && r.st.sessions == st.sessions
  {
    var code := GenerateCode(draw);
    Reply(st.(otps := Issue(st.otps, phone, code, ForRegistration(role), now)), CodeSent(code))
  }

  /** `/register-verify-otp`: the same four-way check as `/verify-otp`, but a
      success opens no session; it hands back the phone and the role the
      request itself submitted (not the role stored with the challenge). */
  function RegisterVerifyOtp(st: State, phone: Phone, otp: string, role: Role, now: nat): (r: Reply<PhoneCheck>)
    ensures r.out.PhoneVerified? <==>
              phone in st.otps && now <= st.otps[phone].expires && st.otps[phone].code == otp
    ensures r.out.PhoneVerified? ==> r.out == PhoneVerified(phone, role)
    ensures r.out.PhoneNotVerified? ==> !r.out.check.Accepted?
    ensures r.out.PhoneNotVerified? && r.out.check.NoChallenge? <==> phone !in st.otps
    ensures r.out.PhoneNotVerified? && r.out.check.Expired? <==> phone in st.otps && now > st.otps[phone].expires
    ensures r.out.PhoneNotVerified? && r.out.check.WrongCode? <==>
              phone in st.otps && now <= st.otps[phone].expires && st.otps[phone].code != otp
    ensures r.out.PhoneVerified? || (r.out.PhoneNotVerified? && r.out.check.Expired?) ==>
              r.st == st.(otps := st.otps - {phone})
    ensures r.out.PhoneNotVerified? && !r.out.check.Expired? ==> r.st == st
  {
    var c := Verify(st.otps, phone, otp, now);
    var st1 := st.(otps := c.store);
    if c.result.Accepted? then Reply(st1, PhoneVerified(phone, role))
    else Reply(st1, PhoneNotVerified(c.result))
  }

  /** `/register`: trusts the submitted `verified` field (only the exact string
      "true" passes), refuses a phone some user already has, and otherwise
      appends exactly one user and logs them in. The OTP registry is neither
      consulted nor changed. */
  function Register(st: State, name: string, phone: Phone, location: string, role: Role,
                    verified: string, newId: UserId, createdAt: Timestamp, token: Token)
    : (r: Reply<RegisterOutcome>)
    ensures r.out.Unverified? <==> verified != "true"
    ensures r.out.AlreadyRegistered? <==> verified == "true" && exists u :: u in st.users && u.phone == phone
    ensures !r.out.Registered? ==> r.st == st
    ensures r.out.Registered? ==>
              && r.out.user == User(newId, name, phone, location, role, createdAt)
              && r.st.users == st.users + [r.out.user]
              && r.st.sessions == st.sessions[token := Some(newId)]
              && r.st.tasks == st.tasks && r.st.otps == st.otps
    ensures DistinctPhones(st.users) ==> DistinctPhones(r.st.users)
  {
    if verified != "true" then Reply(st, Unverified)
    else if UserWithPhone(st.users, phone).Some? then Reply(st, AlreadyRegistered)
    else
      var u := User(newId, name, phone, location, role, createdAt);
      var st1 := st.(users := st.users + [u]);
      assert forall i :: 0 <= i < |st.users| ==> st1.users[i] == st.users[i] && st.users[i] in st.users;
      Reply(Bind(st1, token, Some(newId)), Registered(u))
  }

  // ---------------------------------------------------------------------------
  // Properties relating several routes

  /** A registered phone can log in: the issued code, entered within five
      minutes, opens exactly one session, bound to that user's id, and
      consumes the challenge. */
  lemma LoginThenVerify(st: State, phone: Phone, now: nat, draw: nat, later: nat, token: Token)
    requires draw < CodeSpan && now <= later <= now + LifetimeMs
    requires UserWithPhone(st.users, phone).Some?
    ensures var s1 := Login(st, phone, now, draw);
            var u := UserWithPhone(st.users, phone).value;
            && s1.out == CodeSent(GenerateCode(draw))
            && VerifyOtp(s1.st, phone, s1.out.code, later, token)
               == Reply(st.(otps := st.otps - {phone}, sessions := st.sessions[token := Some(u.id)]),
                        Accepted(ForLogin(u.id)))
  {
  }

  /** `/resend-otp` then `/verify-otp`: a code other than the re-issued one is
      a wrong code and keeps the challenge, while the re-issued code, within
      the new window, logs in as the first user with the phone. */
  lemma ResendThenVerify(st: State, phone: Phone, now: nat, draw: nat, later: nat, stale: string, token: Token)
    requires draw < CodeSpan && now <= later <= now + LifetimeMs
    requires UserWithPhone(st.users, phone).Some?
    requires stale != GenerateCode(draw)
    ensures var s1 := ResendOtp(st, phone, now, draw);
            var u := UserWithPhone(st.users, phone).value;
            && VerifyOtp(s1, phone, stale, later, token) == Reply(s1, WrongCode)
            && VerifyOtp(s1, phone, GenerateCode(draw), later, token)
               == Reply(st.(otps := st.otps - {phone}, sessions := st.sessions[token := Some(u.id)]),
                        Accepted(ForLogin(u.id)))
  {
  }

  /** `/register-verify-phone` then `/register-verify-otp` for a free phone:
      the issued code verifies the phone within five minutes and is reported
      expired after; either way the challenge is gone and nothing else changes. */
  lemma RegisterPhoneThenVerify(st: State, phone: Phone, role: Role, submitted: Role, now: nat, draw: nat, later: nat)
    requires draw < CodeSpan && now <= later
    requires forall u :: u in st.users ==> u.phone != phone
    ensures var s1 := RegisterVerifyPhone(st, phone, role, now, draw);
            && s1.out == CodeSent(GenerateCode(draw))
            && RegisterVerifyOtp(s1.st, phone, GenerateCode(draw), submitted, later)
               == Reply(st.(otps := st.otps - {phone}),
                        if later <= now + LifetimeMs then PhoneVerified(phone, submitted)
                        else PhoneNotVerified(Expired))
  {
  }

  /** `/register-resend-otp` then `/register-verify-otp`, whether or not the
      phone is taken: an earlier code is a wrong code and keeps the challenge,
      while the re-issued code verifies the phone within the new window. */
  lemma RegisterResendThenVerify(st: State, phone: Phone, role: Role, submitted: Role, now: nat, draw: nat,
                                 later: nat, stale: string)
    requires draw < CodeSpan && now <= later <= now + LifetimeMs
    requires stale != GenerateCode(draw)
    ensures var s1 := RegisterResendOtp(st, phone, role, now, draw).st;
            && RegisterVerifyOtp(s1, phone, stale, submitted, later) == Reply(s1, PhoneNotVerified(WrongCode))
            && RegisterVerifyOtp(s1, phone, GenerateCode(draw), submitted, later)
               == Reply(st.(otps := st.otps - {phone}), PhoneVerified(phone, submitted))
  {
  }

  /** A successful login adds exactly one session when the token is fresh. */
  lemma VerifyAddsOneSession(st: State, phone: Phone, otp: string, now: nat, token: Token)
    requires token !in st.sessions
    requires VerifyOtp(st, phone, otp, now, token).out.Accepted?
    ensures |VerifyOtp(st, phone, otp, now, token).st.sessions| == |st.sessions| + 1
  {
  }

  /** A login that is replayed with the same code finds no challenge and
      changes nothing. */
  lemma VerifyOtpReplay(st: State, phone: Phone, otp: string, now: nat, token: Token,
                        later: nat, token2: Token)
    requires VerifyOtp(st, phone, otp, now, token).out.Accepted?
    ensures var st1 := VerifyOtp(st, phone, otp, now, token).st;
            VerifyOtp(st1, phone, otp, later, token2) == Reply(st1, NoChallenge)
  {
  }

  /** `/verify-otp` accepts a registration challenge too; the session it opens
      is bound to no id, so it never resolves to a user. */
  lemma RegistrationChallengeOpensDeadSession(st: State, phone: Phone, otp: string, now: nat, token: Token)
    requires phone in st.otps && st.otps[phone].intent.ForRegistration?
    requires VerifyOtp(st, phone, otp, now, token).out.Accepted?
    ensures var st1 := VerifyOtp(st, phone, otp, now, token).st;
            token in st1.sessions && CurrentUser(st1, Some(token)) == None
  {
  }

  /** `/register` does not look at the OTP registry: any two registries give
      the same outcome, users and sessions. */
  lemma RegisterIgnoresOtps(st: State, otps: map<Phone, Challenge>, name: string, phone: Phone,
                            location: string, role: Role, verified: string, newId: UserId,
                            createdAt: Timestamp, token: Token)
    ensures var a := Register(st, name, phone, location, role, verified, newId, createdAt, token);
            var b := Register(st.(otps := otps), name, phone, location, role, verified, newId, createdAt, token);
            a.out == b.out && a.st.users == b.st.users && a.st.sessions == b.st.sessions
  {
  }

  /** Hence a client that submits `verified = "true"` registers a free phone
      with no OTP ever issued. */
  lemma RegisterWithoutOtp(st: State, name: string, phone: Phone, location: string, role: Role,
                           newId: UserId, createdAt: Timestamp, token: Token)
    requires st.otps == map[]
    requires forall u :: u in st.users ==> u.phone != phone
    ensures Register(st, name, phone, location, role, "true", newId, createdAt, token).out.Registered?
  {
  }

  /** Ids are not checked for uniqueness: a registration that reuses the id of
      the first stored user (two registrations in the same millisecond) still
      succeeds, but its session resolves to that earlier user. */
  lemma RegisterWithReusedIdLogsInAsEarlier(st: State, name: string, phone: Phone, location: string, role: Role,
                                            createdAt: Timestamp, token: Token)
    requires token != "" && |st.users| > 0
    requires forall u :: u in st.users ==> u.phone != phone
    ensures var r := Register(st, name, phone, location, role, "true", st.users[0].id, createdAt, token);
            && r.out.Registered? && r.out.user != st.users[0]
            && CurrentUser(r.st, Some(token)) == Some(st.users[0])
  {
  }

  /** The user a successful registration creates is immediately logged in. */
  lemma RegisterLogsIn(st: State, name: string, phone: Phone, location: string, role: Role,
                       newId: UserId, createdAt: Timestamp, token: Token)
    requires token != ""
    requires forall u :: u in st.users ==> u.id != newId
    requires Register(st, name, phone, location, role, "true", newId, createdAt, token).out.Registered?
    ensures var r := Register(st, name, phone, location, role, "true", newId, createdAt, token);
            CurrentUser(r.st, Some(token)) == Some(r.out.user)
  {
  }
}

=== FILE: base.dfy ===
/** Small generic helpers over sequences, shared by every other module:
    an Option type and the two array primitives the server leans on,
    `findIndex`/`find` (first match) and `filter` (order-preserving selection). */
module Base {

  datatype Option<+T> = None | Some(value: T)

  /** Index of the first element satisfying `p`, or None when there is none
      (the `findIndex` of the server, with -1 rendered as None). */
  function FirstIndex<T>(s: seq<T>, p: T -> bool): (r: Option<nat>)
    ensures r.Some? ==> r.value < |s| && p(s[r.value])
    ensures r.Some? ==> forall j :: 0 <= j < r.value ==> !p(s[j])
    ensures r.None? <==> forall j :: 0 <= j < |s| ==> !p(s[j])
  {
    if |s| == 0 then None
    else if p(s[0]) then Some(0)
    else
      match FirstIndex(s[1..], p)
      case None => None
      case Some(i) => Some(i + 1)
  }

  /** The first element satisfying `p` (the server's `find`). */
  function Find<T(!new)>(s: seq<T>, p: T -> bool): (r: Option<T>)
    ensures r.Some? ==> r.value in s && p(r.value)
    ensures r.None? <==> forall x :: x in s ==> !p(x)
    ensures r.Some? ==> exists i :: 0 <= i < |s| && s[i] == r.value && forall j :: 0 <= j < i ==> !p(s[j])
  {
    match FirstIndex(s, p)
    case None => None
    case Some(i) => Some(s[i])
  }

  /** `r` is `s` with some elements left out and the rest in their original order. */
  predicate IsSubsequence<T(==)>(r: seq<T>, s: seq<T>)
    decreases |s|
  {
    |r| == 0 || (|s| > 0 && ((r[0] == s[0] && IsSubsequence(r[1..], s[1..])) || IsSubsequence(r, s[1..])))
  }

  /** The elements of `s` satisfying `p`, in their original order (the server's
      `filter`). Being a subsequence that keeps every match as often as it
      occurs, the result is determined: only the matching positions can be kept. */
  function Filter<T(!new)>(s: seq<T>, p: T -> bool): (r: seq<T>)
    ensures |r| <= |s|
    ensures IsSubsequence(r, s)
    ensures forall x :: x in r <==> x in s && p(x)
    ensures forall x :: multiset(r)[x] == if p(x) then multiset(s)[x] else 0
    decreases |s|
  {
    if |s| == 0 then []
    else
      var rest := Filter(s[1..], p);
      assert s == [s[0]] + s[1..];
      if p(s[0]) then [s[0]] + rest else rest
  }

  /** Filtering keeps exactly the elements that pass, whatever else is appended after. */
  lemma {:induction false} FilterAppend<T(!new)>(s: seq<T>, x: T, p: T -> bool)
    ensures Filter(s + [x], p) == Filter(s, p) + (if p(x) then [x] else [])
  {
    FilterConcat(s, [x], p);
    assert [x][1..] == [];
  }

  /** Filtering distributes over concatenation: the matches of `s` come first,
      in order, then those of `t`. */
  lemma {:induction false} FilterConcat<T(!new)>(s: seq<T>, t: seq<T>, p: T -> bool)
    ensures Filter(s + t, p) == Filter(s, p) + Filter(t, p)
    decreases |s|
  {
    if |s| == 0 {
      assert s + t == t;
    } else {
      assert (s + t)[1..] == s[1..] + t;
      FilterConcat(s[1..], t, p);
    }
  }
}

=== FILE: domain.dfy ===
/** Entities of the errand marketplace and the whole server state:
    the two persisted collections (users, tasks) and the two in-memory
    registries (sessions, pending OTP challenges). */
module Domain {
  import opened Base

  type UserId = string
  type TaskId = string
  type Phone = string
  /** An opaque session token (64 hex characters in the server). */
  type Token = string
  /** Roles are whatever string the registration form submitted; only the
      two literals below are ever compared against. */
  type Role = string
  /** An opaque ISO-8601 timestamp taken from the wall clock. */
  type Timestamp = string

  const RequesterRole: Role := "requester"
  const HelperRole: Role := "helper"

  datatype User = User(
    id: UserId,
    name: string,
    phone: Phone,
    location: string,
    role: Role,
    createdAt: Timestamp)

  datatype TaskStatus = Open | InProgress | Completed

  /** Position of a status along open -> in-progress -> completed. */
  function Rank(s: TaskStatus): nat
  {
    match s
    case Open => 0
    case InProgress => 1
    case Completed => 2
  }

  /** `Confirmed` exists in the task schema but no operation assigns it. */
  datatype PaymentStatus = Pending | Paid | Confirmed

  datatype Task = Task(
    id: TaskId,
    title: string,
    description: string,
    itemCost: int,
    serviceFee: int,
    totalCost: int,
    deliveryLocation: string,
    requesterId: UserId,
    requesterName: string,
    requesterPhone: Phone,
    helperId: Option<UserId>,
    helperName: Option<string>,
    status: TaskStatus,
    paymentStatus: PaymentStatus,
    paymentMethod: Option<string>,
    paidAt: Option<Timestamp>,
    createdAt: Timestamp,
    acceptedAt: Option<Timestamp>,
    completedAt: Option<Timestamp>)

  /** What a pending OTP was issued for: a login of a known user, or a
      registration under a chosen role. */
  datatype Intent = ForLogin(userId: UserId) | ForRegistration(role: Role)

  /** A pending one-time code; `expires` is in milliseconds of wall-clock time. */
  datatype Challenge = Challenge(code: string, expires: nat, intent: Intent)

  /** The session registry maps a token to the bound user id; `None` stands
      for the `undefined` id a session gets when it is opened from a
      registration challenge, which carries no user id. */
  datatype State = State(
    users: seq<User>,
    tasks: seq<Task>,
    sessions: map<Token, Option<UserId>>,
    otps: map<Phone, Challenge>)

  /** Start-up state: both data files initialised to empty arrays, no sessions, no OTPs. */
  const Initial: State := State([], [], map[], map[])

  /** No two registered users share a phone number. */
  predicate DistinctPhones(users: seq<User>)
  {
    forall i, j :: 0 <= i < j < |users| ==> users[i].phone != users[j].phone
  }

  /** The `u.phone === phone` lookup shared by login and registration. */
  function UserWithPhone(users: seq<User>, phone: Phone): (r: Option<User>)
    ensures r.Some? ==> r.value in users && r.value.phone == phone
    ensures r.None? <==> forall u :: u in users ==> u.phone != phone
    ensures r.Some? ==> exists i :: 0 <= i < |users| && users[i] == r.value
                          && forall j :: 0 <= j < i ==> users[j].phone != phone
  {
    Find(users, (u: User) => u.phone == phone)
  }

  /** Index of the first task with the given id (`tasks.findIndex(t => t.id === taskId)`). */
  function TaskIndex(tasks: seq<Task>, id: TaskId): (r: Option<nat>)
    ensures r.Some? ==> r.value < |tasks| && tasks[r.value].id == id
    ensures r.Some? ==> forall j :: 0 <= j < r.value ==> tasks[j].id != id
    ensures r.None? <==> forall j :: 0 <= j < |tasks| ==> tasks[j].id != id
  {
    FirstIndex(tasks, (t: Task) => t.id == id)
  }
}

=== FILE: otp.dfy ===
/** The OTP challenge registry: six-digit code generation, issuing a challenge
    (overwriting any pending one for the phone) and the four-way verification
    shared by the login and registration flows. */
module Otp {
  import opened Domain

  /** Five minutes, in milliseconds. */
  const LifetimeMs: nat := 5 * 60 * 1000
  /** Codes are `floor(CodeBase + random * CodeSpan)`. */
  const CodeBase: nat := 100000
  const CodeSpan: nat := 900000

  predicate IsDigit(c: char)
  {
    '0' <= c <= '9'
  }

  predicate AllDigits(s: string)
  {
    forall i :: 0 <= i < |s| ==> IsDigit(s[i])
  }

  function DigitChar(d: nat): (c: char)
    requires d < 10
    ensures IsDigit(c)
  {
    ('0' as int + d) as char
  }

  function DigitValue(c: char): (d: nat)
    requires IsDigit(c)
    ensures d < 10 && DigitChar(d) == c
  {
    c as int - '0' as int
  }

  function Pow10(k: nat): (p: nat)
    ensures p >= 1
  {
    if k == 0 then 1 else 10 * Pow10(k - 1)
  }

  /** JavaScript's `Number.prototype.toString()` for a non-negative integer:
      its decimal digits, most significant first, without leading zeros. */
  function ToDecimal(n: nat): (s: string)
    ensures 1 <= |s| && AllDigits(s)
    ensures n >= 10 ==> s[0] != '0'
    decreases n
  {
    if n < 10 then [DigitChar(n)] else ToDecimal(n / 10) + [DigitChar(n % 10)]
  }

  /** The number a string of decimal digits denotes. */
  function DecimalValue(s: string): nat
    requires AllDigits(s)
    decreases |s|
  {
    if |s| == 0 then 0 else 10 * DecimalValue(s[..|s| - 1]) + DigitValue(s[|s| - 1])
  }

  /** Reading back the rendered digits yields the number. */
  lemma {:induction false} DecimalRoundTrip(n: nat)
    ensures DecimalValue(ToDecimal(n)) == n
    decreases n
  {
    if n >= 10 {
      var s := ToDecimal(n);
      assert s[..|s| - 1] == ToDecimal(n / 10);
      DecimalRoundTrip(n / 10);
    }
  }

  /** A number with k + 1 digits renders as k + 1 characters. */
  lemma {:induction false} DecimalLength(n: nat, k: nat)
    requires Pow10(k) <= n < Pow10(k + 1)
    ensures |ToDecimal(n)| == k + 1
    decreases k
  {
    if k > 0 {
      assert Pow10(k - 1) <= n / 10 < Pow10(k);
      DecimalLength(n / 10, k - 1);
    }
  }

  /** `generateOTP`, with the random draw passed in as the integer part
      `r` of `Math.random() * 900000`: always six decimal digits, no leading
      zero, denoting 100000 + r. */
  function GenerateCode(r: nat): (code: string)
    requires r < CodeSpan
    ensures |code| == 6 && AllDigits(code) && code[0] != '0'
    ensures DecimalValue(code) == CodeBase + r
    ensures CodeBase <= DecimalValue(code) <= 999999
  {
    assert Pow10(5) == CodeBase && Pow10(6) == 1000000;
    DecimalLength(CodeBase + r, 5);
    DecimalRoundTrip(CodeBase + r);
    ToDecimal(CodeBase + r)
  }

  /** Distinct draws give distinct codes: each draw gets its own code. */
  lemma GenerateCodeInjective(r1: nat, r2: nat)
    requires r1 < CodeSpan && r2 < CodeSpan && r1 != r2
    ensures GenerateCode(r1) != GenerateCode(r2)
  {
  }

  /** `otpStore.set(phone, {otp, ..., expires: now + 5 min})`: the new challenge
      replaces any pending one for the phone; other phones are untouched. */
  function Issue(otps: map<Phone, Challenge>, phone: Phone, code: string, intent: Intent, now: nat)
    : (r: map<Phone, Challenge>)
    ensures r.Keys == otps.Keys + {phone}
    ensures r[phone].code == code && r[phone].intent == intent
    ensures r[phone].expires == now + LifetimeMs
    ensures forall p :: p in otps && p != phone ==> r[p] == otps[p]
  {
    otps[phone := Challenge(code, now + LifetimeMs, intent)]
  }

  /** Outcome of checking a submitted code against the registry. */
  datatype Check = NoChallenge | Expired | WrongCode | Accepted(intent: Intent)

  /** A verification outcome together with the registry it leaves behind. */
  datatype Checked = Checked(store: map<Phone, Challenge>, result: Check)

  /** The verification both `/verify-otp` and `/register-verify-otp` perform.
      Expiry is strict (`now > expires`), an expired challenge is removed,
      a wrong code leaves the challenge in place, a correct one consumes it. */
  function Verify(otps: map<Phone, Challenge>, phone: Phone, code: string, now: nat): (r: Checked)
    ensures r.result.NoChallenge? <==> phone !in otps
    ensures r.result.Expired? <==> phone in otps && now > otps[phone].expires
    ensures r.result.WrongCode? <==> phone in otps && now <= otps[phone].expires && otps[phone].code != code
    ensures r.result.Accepted? <==> phone in otps && now <= otps[phone].expires && otps[phone].code == code
    ensures r.result.Accepted? ==> r.result.intent == otps[phone].intent
    ensures r.result.NoChallenge? || r.result.WrongCode? ==> r.store == otps
    ensures r.result.Expired? || r.result.Accepted? ==> r.store == otps - {phone}
  {
    if phone !in otps then Checked(otps, NoChallenge)
    else
      var c := otps[phone];
      if now > c.expires then Checked(otps - {phone}, Expired)
      else if c.code != code then Checked(otps, WrongCode)
      else Checked(otps - {phone}, Accepted(c.intent))
  }

  /** A code that was just accepted cannot be replayed: the challenge is gone. */
  lemma AcceptedCodeCannotBeReplayed(otps: map<Phone, Challenge>, phone: Phone, code: string, now: nat, later: nat)
    requires Verify(otps, phone, code, now).result.Accepted?
    ensures Verify(Verify(otps, phone, code, now).store, phone, code, later).result == NoChallenge
  {
  }

  /** Guessing wrong costs nothing: the right code still works within the window. */
  lemma WrongGuessKeepsChallenge(otps: map<Phone, Challenge>, phone: Phone, guess: string, now: nat, later: nat)
    requires Verify(otps, phone, guess, now).result.WrongCode?
    requires later <= otps[phone].expires
    ensures Verify(Verify(otps, phone, guess, now).store, phone, otps[phone].code, later).result
            == Accepted(otps[phone].intent)
  {
  }

  /** Once expiry is detected the challenge is gone, even for the correct code. */
  lemma ExpiredChallengeIsCleared(otps: map<Phone, Challenge>, phone: Phone, code: string, now: nat, later: nat)
    requires Verify(otps, phone, code, now).result.Expired?
    ensures Verify(Verify(otps, phone, code, now).store, phone, otps[phone].code, later).result == NoChallenge
  {
  }

  /** A freshly issued code verifies up to and including the expiry instant, and not after. */
  lemma IssuedCodeWindow(otps: map<Phone, Challenge>, phone: Phone, code: string, intent: Intent, now: nat, later: nat)
    ensures Verify(Issue(otps, phone, code, intent, now), phone, code, later).result
            == (if later <= now + LifetimeMs then Accepted(intent) else Expired)
  {
  }

  /** Re-issuing for a phone invalidates the earlier code (unless the draw repeats it). */
  lemma ReissueInvalidatesOldCode(otps: map<Phone, Challenge>, phone: Phone, stale: string, current: string, intent: Intent, now: nat, later: nat)
    requires stale != current && later <= now + LifetimeMs
    ensures Verify(Issue(otps, phone, current, intent, now), phone, stale, later).result == WrongCode
  {
  }
}

=== FILE: queries.dfy ===
/** The role-scoped task listings: `/available-tasks`, `/my-tasks`,
    `/my-accepted-tasks` and `/history`. Each keeps the stored order; a
    listing reserved for one role yields None (a redirect to the dashboard)
    for any other caller. */
module Queries {
  import opened Base
  import opened Domain
  import opened TaskLifecycle

  /** `/available-tasks`: for a helper, every open task, whoever posted it. */
  function AvailableTasks(st: State, caller: User): (r: Option<seq<Task>>)
    ensures r.Some? ==> IsSubsequence(r.value, st.tasks)
    ensures r.Some? <==> caller.role == HelperRole
    ensures r.Some? ==> forall t :: t in r.value <==> t in st.tasks && t.status == Open
    ensures r.Some? ==> forall t :: multiset(r.value)[t] == if t.status == Open then multiset(st.tasks)[t] else 0
  {
    if caller.role != HelperRole then None
    else Some(Filter(st.tasks, (t: Task) => t.status == Open))
  }

  /** `/my-tasks`: for a requester, every task they posted, in any status. */
  function MyTasks(st: State, caller: User): (r: Option<seq<Task>>)
    ensures r.Some? ==> IsSubsequence(r.value, st.tasks)
    ensures r.Some? <==> caller.role == RequesterRole
    ensures r.Some? ==> forall t :: t in r.value <==> t in st.tasks && t.requesterId == caller.id
    ensures r.Some? ==>
              forall t :: multiset(r.value)[t] == if t.requesterId == caller.id then multiset(st.tasks)[t] else 0
  {
    if caller.role != RequesterRole then None
    else Some(Filter(st.tasks, (t: Task) => t.requesterId == caller.id))
  }

  /** `/my-accepted-tasks`: for a helper, every task assigned to them, in any status. */
  function MyAcceptedTasks(st: State, caller: User): (r: Option<seq<Task>>)
    ensures r.Some? ==> IsSubsequence(r.value, st.tasks)
    ensures r.Some? <==> caller.role == HelperRole
    ensures r.Some? ==> forall t :: t in r.value <==> t in st.tasks && t.helperId == Some(caller.id)
    ensures r.Some? ==>
              forall t :: multiset(r.value)[t] == if t.helperId == Some(caller.id) then multiset(st.tasks)[t] else 0
  {
    if caller.role != HelperRole then None
    else Some(Filter(st.tasks, (t: Task) => t.helperId == Some(caller.id)))
  }

  /** Which side of a task a history listing looks at: a requester sees what
      they posted; every other role is treated as a helper. */
  predicate InHistoryOf(caller: User, t: Task)
  {
    t.status == Completed
    && if caller.role == RequesterRole then t.requesterId == caller.id else t.helperId == Some(caller.id)
  }

  /** `/history`: the caller's completed tasks, for any role. */
  function History(st: State, caller: User): (r: seq<Task>)
    ensures IsSubsequence(r, st.tasks)
    ensures forall t :: t in r <==>
              (t in st.tasks && t.status == Completed
               && if caller.role == RequesterRole then t.requesterId == caller.id else t.helperId == Some(caller.id))
    ensures forall t :: multiset(r)[t] == if InHistoryOf(caller, t) then multiset(st.tasks)[t] else 0
  {
    Filter(st.tasks, (t: Task) => InHistoryOf(caller, t))
  }

  // ---------------------------------------------------------------------------
  // How the listings follow the transitions

  /** A requester's new task appears at the end of their own list and of the
      helpers' available list; both lists are otherwise unchanged. */
  lemma CreatedTaskIsListed(st: State, caller: User, helper: User, title: string, description: string,
                            itemCost: int, serviceFee: int, deliveryLocation: string,
                            newId: TaskId, createdAt: Timestamp)
    requires caller.role == RequesterRole && helper.role == HelperRole
    ensures var r := CreateTask(st, caller, title, description, itemCost, serviceFee, deliveryLocation, newId, createdAt);
            var t := r.tasks[|st.tasks|];
            && MyTasks(r, caller).value == MyTasks(st, caller).value + [t]
            && AvailableTasks(r, helper).value == AvailableTasks(st, helper).value + [t]
  {
    var r := CreateTask(st, caller, title, description, itemCost, serviceFee, deliveryLocation, newId, createdAt);
    var t := r.tasks[|st.tasks|];
    assert r.tasks == st.tasks + [t];
    FilterAppend(st.tasks, t, (t: Task) => t.requesterId == caller.id);
    FilterAppend(st.tasks, t, (t: Task) => t.status == Open);
  }

  /** An accepted task shows up among the helper's accepted tasks and no longer
      counts as available in its accepted form. */
  lemma AcceptedTaskIsListed(st: State, caller: User, taskId: TaskId, acceptedAt: Timestamp)
    requires caller.role == HelperRole
    requires TaskIndex(st.tasks, taskId).Some? && st.tasks[TaskIndex(st.tasks, taskId).value].status == Open
    ensures var r := AcceptTask(st, caller, taskId, acceptedAt);
            var t := r.tasks[TaskIndex(st.tasks, taskId).value];
            t in MyAcceptedTasks(r, caller).value && t !in AvailableTasks(r, caller).value
  {
  }

  /** A task the requester has paid for is in their history from then on. */
  lemma PaidTaskIsInHistory(st: State, caller: User, taskId: TaskId, paymentMethod: string,
                            paidAt: Timestamp, completedAt: Timestamp)
    requires PayableBy(st, caller, taskId)
    ensures var r := ProcessPayment(st, caller, taskId, paymentMethod, paidAt, completedAt);
            r.tasks[TaskIndex(st.tasks, taskId).value] in History(r, caller)
  {
  }

  /** A requester's history is part of their own task list, with multiplicity. */
  lemma RequesterHistoryWithinMyTasks(st: State, caller: User)
    requires caller.role == RequesterRole
    ensures multiset(History(st, caller)) <= multiset(MyTasks(st, caller).value)
  {
  }
}

=== FILE: server.dfy ===
/** The server as one state machine: every state-changing request, with
    `requireAuth` resolving the session cookie before the task routes, and
    the invariants that hold across any sequence of requests from start-up:
    phones stay distinct, tasks keep their terms, statuses only move forward
    along open -> in-progress -> completed, an assigned helper is never
    replaced, and `confirmed` is never assigned. */
module Server {
  import opened Base
  import opened Domain
  import opened Otp
  import opened Sessions
  import opened Auth
  import opened TaskLifecycle

  /** The POST routes and `/logout`, with every value the server would draw
      from the clock, the random sources or the id generator supplied. */
  datatype Request =
    | LoginReq(phone: Phone, now: nat, draw: nat)
    | VerifyOtpReq(phone: Phone, otp: string, now: nat, token: Token)
    | ResendOtpReq(phone: Phone, now: nat, draw: nat)
    | RegisterVerifyPhoneReq(phone: Phone, role: Role, now: nat, draw: nat)
    | RegisterResendOtpReq(phone: Phone, role: Role, now: nat, draw: nat)
    | RegisterVerifyOtpReq(phone: Phone, otp: string, role: Role, now: nat)
    | RegisterReq(name: string, phone: Phone, location: string, role: Role, verified: string,
                  userId: UserId, createdAt: Timestamp, token: Token)
    | CreateTaskReq(cookie: Option<Token>, title: string, description: string, itemCost: int,
                    serviceFee: int, deliveryLocation: string, taskId: TaskId, createdAt: Timestamp)
    | AcceptTaskReq(cookie: Option<Token>, taskId: TaskId, acceptedAt: Timestamp)
    | ProcessPaymentReq(cookie: Option<Token>, taskId: TaskId, paymentMethod: string,
                        paidAt: Timestamp, completedAt: Timestamp)
    | LogoutReq(cookie: Option<Token>)

  /** A random draw is the integer part of `Math.random() * 900000`. */
  predicate WellFormed(req: Request)
  {
    (req.LoginReq? || req.ResendOtpReq? || req.RegisterVerifyPhoneReq? || req.RegisterResendOtpReq?)
    ==> req.draw < CodeSpan
  }

  /** The state after serving one request. */
  function Apply(st: State, req: Request): (r: State)
    requires WellFormed(req)
    ensures (req.CreateTaskReq? || req.AcceptTaskReq? || req.ProcessPaymentReq?) && CurrentUser(st, req.cookie).None?
            ==> r == st
    ensures |st.users| <= |r.users| <= |st.users| + 1 && r.users[..|st.users|] == st.users
    ensures |r.users| > |st.users| ==>
              req.RegisterReq? && r.users[|st.users|] == User(req.userId, req.name, req.phone, req.location, req.role, req.createdAt)
    ensures !(req.CreateTaskReq? || req.AcceptTaskReq? || req.ProcessPaymentReq?) ==> r.tasks == st.tasks
    ensures |st.tasks| <= |r.tasks| <= |st.tasks| + 1
  {
    match req
    case LoginReq(phone, now, draw) => Login(st, phone, now, draw).st
    case VerifyOtpReq(phone, otp, now, token) => VerifyOtp(st, phone, otp, now, token).st
    case ResendOtpReq(phone, now, draw) => ResendOtp(st, phone, now, draw)
    case RegisterVerifyPhoneReq(phone, role, now, draw) => RegisterVerifyPhone(st, phone, role, now, draw).st
    case RegisterResendOtpReq(phone, role, now, draw) => RegisterResendOtp(st, phone, role, now, draw).st
    case RegisterVerifyOtpReq(phone, otp, role, now) => RegisterVerifyOtp(st, phone, otp, role, now).st
    case RegisterReq(name, phone, location, role, verified, userId, createdAt, token) =>
      Register(st, name, phone, location, role, verified, userId, createdAt, token).st
    case CreateTaskReq(cookie, title, description, itemCost, serviceFee, deliveryLocation, taskId, createdAt) =>
      (match CurrentUser(st, cookie)
       case None => st
       case Some(u) => CreateTask(st, u, title, description, itemCost, serviceFee, deliveryLocation, taskId, createdAt))
    case AcceptTaskReq(cookie, taskId, acceptedAt) =>
      (match CurrentUser(st, cookie)
       case None => st
       case Some(u) => AcceptTask(st, u, taskId, acceptedAt))
    case ProcessPaymentReq(cookie, taskId, paymentMethod, paidAt, completedAt) =>
      (match CurrentUser(st, cookie)
       case None => st
       case Some(u) => ProcessPayment(st, u, taskId, paymentMethod, paidAt, completedAt))
    case LogoutReq(cookie) => Logout(st, cookie)
  }

  /** The state after serving the requests in order. */
  function Run(st: State, reqs: seq<Request>): (r: State)
    requires forall k :: 0 <= k < |reqs| ==> WellFormed(reqs[k])
    ensures |st.users| <= |r.users| && r.users[..|st.users|] == st.users
    ensures |st.tasks| <= |r.tasks| <= |st.tasks| + |reqs|
    decreases |reqs|
  {
    if |reqs| == 0 then
      assert st.users[..|st.users|] == st.users;
      st
    else
      var st1 := Apply(st, reqs[0]);
      var r := Run(st1, reqs[1..]);
      assert r.users[..|st.users|] == r.users[..|st1.users|][..|st.users|];
      r
  }

  /** Serving two batches of requests one after the other is serving their
      concatenation. */
  lemma {:induction false} RunAppend(st: State, a: seq<Request>, b: seq<Request>)
    requires forall k :: 0 <= k < |a| ==> WellFormed(a[k])
    requires forall k :: 0 <= k < |b| ==> WellFormed(b[k])
    ensures forall k :: 0 <= k < |a + b| ==> WellFormed((a + b)[k])
    ensures Run(st, a + b) == Run(Run(st, a), b)
    decreases |a|
  {
    if |a| == 0 {
      assert a + b == b;
    } else {
      assert (a + b)[1..] == a[1..] + b;
      RunAppend(Apply(st, a[0]), a[1..], b);
    }
  }

  /** What every stored task satisfies: its total is the sum of its costs,
      it is paid exactly when completed, `confirmed` never occurs, an open
      task has no helper and an in-progress task has one. */
  predicate TaskInv(t: Task)
  {
    && t.totalCost == t.itemCost + t.serviceFee
    && t.paymentStatus != Confirmed
    && (t.status == Completed <==> t.paymentStatus == Paid)
    && (t.status == Open ==> t.helperId.None? && t.helperName.None?)
    && (t.status == InProgress ==> t.helperId.Some? && t.helperName.Some?)
  }

  predicate Inv(st: State)
  {
    && DistinctPhones(st.users)
    && forall k :: 0 <= k < |st.tasks| ==> TaskInv(st.tasks[k])
  }

  /** How one stored task may change between two moments: its terms are
      fixed, its status never moves back, and once it has a helper that
      helper stays. */
  predicate Advances(x: Task, y: Task)
  {
    && SameTerms(x, y)
    && Rank(x.status) <= Rank(y.status)
    && (x.helperId.Some? ==> y.helperId == x.helperId && y.helperName == x.helperName)
  }

  /** How the whole state may change: users are only appended, tasks are only
      appended, and every existing task advances. */
  predicate Evolves(a: State, b: State)
  {
    && |a.users| <= |b.users| && b.users[..|a.users|] == a.users
    && |a.tasks| <= |b.tasks|
    && forall k :: 0 <= k < |a.tasks| ==> Advances(a.tasks[k], b.tasks[k])
  }

  lemma EvolvesTransitive(a: State, b: State, c: State)
    requires Evolves(a, b) && Evolves(b, c)
    ensures Evolves(a, c)
  {
  }

  lemma InitialInv()
    ensures Inv(Initial)
  {
  }

  /** A route that touches neither users nor tasks keeps the invariant. */
  lemma FrameStep(st: State, r: State)
    requires Inv(st) && r.users == st.users && r.tasks == st.tasks
    ensures Inv(r) && Evolves(st, r)
  {
  }

  /** Registration keeps phones distinct and only appends a user. */
  lemma RegisterStep(st: State, name: string, phone: Phone, location: string, role: Role,
                     verified: string, userId: UserId, createdAt: Timestamp, token: Token)
    requires Inv(st)
    ensures var r := Register(st, name, phone, location, role, verified, userId, createdAt, token).st;
            Inv(r) && Evolves(st, r)
  {
  }

  /** A created task satisfies the task invariant; existing tasks are untouched. */
  lemma CreateTaskStep(st: State, caller: User, title: string, description: string,
                       itemCost: int, serviceFee: int, deliveryLocation: string,
                       taskId: TaskId, createdAt: Timestamp)
    requires Inv(st)
    ensures var r := CreateTask(st, caller, title, description, itemCost, serviceFee, deliveryLocation, taskId, createdAt);
            Inv(r) && Evolves(st, r)
  {
  }

  /** Accepting moves an open, unassigned task to in-progress with a helper. */
  lemma AcceptTaskStep(st: State, caller: User, taskId: TaskId, acceptedAt: Timestamp)
    requires Inv(st)
    ensures var r := AcceptTask(st, caller, taskId, acceptedAt);
            Inv(r) && Evolves(st, r)
  {
  }

  /** Paying moves a task to completed and paid, keeping its helper. */
  lemma ProcessPaymentStep(st: State, caller: User, taskId: TaskId, paymentMethod: string,
                           paidAt: Timestamp, completedAt: Timestamp)
    requires Inv(st)
    ensures var r := ProcessPayment(st, caller, taskId, paymentMethod, paidAt, completedAt);
            Inv(r) && Evolves(st, r)
  {
  }

  /** One request keeps the invariant and only moves the state forward. */
  lemma ApplyStep(st: State, req: Request)
    requires WellFormed(req) && Inv(st)
    ensures Inv(Apply(st, req)) && Evolves(st, Apply(st, req))
  {
    match req
    case RegisterReq(name, phone, location, role, verified, userId, createdAt, token) =>
      RegisterStep(st, name, phone, location, role, verified, userId, createdAt, token);
    case CreateTaskReq(cookie, title, description, itemCost, serviceFee, deliveryLocation, taskId, createdAt) =>
      match CurrentUser(st, cookie) {
        case None => FrameStep(st, st);
        case Some(u) => CreateTaskStep(st, u, title, description, itemCost, serviceFee, deliveryLocation, taskId, createdAt);
      }
    case AcceptTaskReq(cookie, taskId, acceptedAt) =>
      match CurrentUser(st, cookie) {
        case None => FrameStep(st, st);
        case Some(u) => AcceptTaskStep(st, u, taskId, acceptedAt);
      }
    case ProcessPaymentReq(cookie, taskId, paymentMethod, paidAt, completedAt) =>
      match CurrentUser(st, cookie) {
        case None => FrameStep(st, st);
        case Some(u) => ProcessPaymentStep(st, u, taskId, paymentMethod, paidAt, completedAt);
      }
    case _ =>
      FrameStep(st, Apply(st, req));
  }

  /** Any sequence of requests keeps the invariant and only moves the state forward. */
  lemma {:induction false} RunStep(st: State, reqs: seq<Request>)
    requires forall k :: 0 <= k < |reqs| ==> WellFormed(reqs[k])
    requires Inv(st)
    ensures Inv(Run(st, reqs)) && Evolves(st, Run(st, reqs))
    decreases |reqs|
  {
    if |reqs| == 0 {
      assert st.users[..|st.users|] == st.users;
    } else {
      var st1 := Apply(st, reqs[0]);
      ApplyStep(st, reqs[0]);
      RunStep(st1, reqs[1..]);
      EvolvesTransitive(st, st1, Run(st1, reqs[1..]));
    }
  }

  /** Every state the server can reach from start-up satisfies the invariant. */
  lemma {:induction false} ReachableInv(reqs: seq<Request>)
    requires forall k :: 0 <= k < |reqs| ==> WellFormed(reqs[k])
    ensures Inv(Run(Initial, reqs))
  {
    RunStep(Initial, reqs);
  }
}

=== FILE: sessions.dfy ===
/** The session registry: opening a session, resolving the `sessionId`
    cookie to the current user (`getCurrentUser`), and logout. Sessions
    never expire on their own. */
module Sessions {
  import opened Base
  import opened Domain

  /** The guard `sessionId && ...`: a missing cookie and an empty one are both falsy. */
  predicate Present(cookie: Option<Token>)
  {
    cookie.Some? && cookie.value != ""
  }

  /** `sessions.set(token, userId)`: binds the token, overwriting any earlier binding of it. */
  function Bind(st: State, token: Token, uid: Option<UserId>): (r: State)
    ensures r.sessions.Keys == st.sessions.Keys + {token} && r.sessions[token] == uid
    ensures forall t :: t in st.sessions && t != token ==> r.sessions[t] == st.sessions[t]
    ensures r.users == st.users && r.tasks == st.tasks && r.otps == st.otps
  {
    st.(sessions := st.sessions[token := uid])
  }

  /** `getCurrentUser`: the first user whose id is the one the cookie's session
      is bound to. There is no user when the cookie is absent or empty, the
      token is unknown, the session is bound to no id, or no user has the id. */
  function CurrentUser(st: State, cookie: Option<Token>): (r: Option<User>)
    ensures r.Some? ==> Present(cookie) && cookie.value in st.sessions
    ensures r.Some? ==> r.value in st.users && st.sessions[cookie.value] == Some(r.value.id)
    ensures r.Some? ==> exists i :: 0 <= i < |st.users| && st.users[i] == r.value
                          && forall j :: 0 <= j < i ==> st.users[j].id != r.value.id
    ensures r.None? <==>
              !Present(cookie) || cookie.value !in st.sessions || st.sessions[cookie.value].None?
              || forall u :: u in st.users ==> u.id != st.sessions[cookie.value].value
  {
    if Present(cookie) && cookie.value in st.sessions then
      match st.sessions[cookie.value]
      case None => None
      case Some(uid) => Find(st.users, (u: User) => u.id == uid)
    else None
  }

  /** `/logout`: forgets the cookie's session if there is a cookie; nothing else changes. */
  function Logout(st: State, cookie: Option<Token>): (r: State)
    ensures Present(cookie) ==> r.sessions == st.sessions - {cookie.value}
    ensures !Present(cookie) ==> r.sessions == st.sessions
    ensures r.users == st.users && r.tasks == st.tasks && r.otps == st.otps
  {
    if Present(cookie) then st.(sessions := st.sessions - {cookie.value}) else st
  }

  /** After logout the same cookie resolves to no user. */
  lemma LogoutEndsSession(st: State, cookie: Option<Token>)
    ensures CurrentUser(Logout(st, cookie), cookie) == None
  {
  }

  /** A session opened for the id of a registered user that no other user
      carries resolves to that user. */
  lemma OpenedSessionResolves(st: State, token: Token, u: User)
    requires token != "" && u in st.users
    requires forall v :: v in st.users && v.id == u.id ==> v == u
    ensures CurrentUser(Bind(st, token, Some(u.id)), Some(token)) == Some(u)
  {
  }

  /** A session bound to no id never resolves to a user. */
  lemma UnboundSessionResolvesToNobody(st: State, token: Token)
    ensures CurrentUser(Bind(st, token, None), Some(token)) == None
  {
  }
}

=== FILE: tasks.dfy ===
/** The task state machine: `/create-task`, `/accept-task`, the guard of the
    payment page and `/process-payment`. The caller is the user the session
    cookie resolved to; a caller of the wrong role, a missing task or a task
    the caller does not own leaves the task list as it was (the server
    redirects). Ids and timestamps are parameters. */
module TaskLifecycle {
  import opened Base
  import opened Domain

  /** The fields a task carries over every transition: identity, costs and the
      requester snapshot taken at creation. */
  predicate SameTerms(a: Task, b: Task)
  {
    && a.id == b.id && a.title == b.title && a.description == b.description
    && a.itemCost == b.itemCost && a.serviceFee == b.serviceFee && a.totalCost == b.totalCost
    && a.deliveryLocation == b.deliveryLocation
    && a.requesterId == b.requesterId && a.requesterName == b.requesterName
    && a.requesterPhone == b.requesterPhone && a.createdAt == b.createdAt
  }

  /** `/create-task`: a requester appends exactly one open, unpaid, unassigned
      task whose total is the sum of the two costs (which the server does not
      check for sign) and which snapshots the requester's id, name and phone.
      Any other caller changes nothing. */
  function CreateTask(st: State, caller: User, title: string, description: string,
                      itemCost: int, serviceFee: int, deliveryLocation: string,
                      newId: TaskId, createdAt: Timestamp): (r: State)
    ensures caller.role != RequesterRole ==> r == st
    ensures caller.role == RequesterRole ==>
              && |r.tasks| == |st.tasks| + 1
              && r.tasks[..|st.tasks|] == st.tasks
              && var t := r.tasks[|st.tasks|];
                 && t.id == newId && t.title == title && t.description == description
                 && t.deliveryLocation == deliveryLocation && t.createdAt == createdAt
                 && t.itemCost == itemCost && t.serviceFee == serviceFee
                 && t.totalCost == itemCost + serviceFee
                 && t.requesterId == caller.id && t.requesterName == caller.name
                 && t.requesterPhone == caller.phone
                 && t.status == Open && t.paymentStatus == Pending
                 && t.helperId.None? && t.helperName.None? && t.paymentMethod.None?
                 && t.paidAt.None? && t.acceptedAt.None? && t.completedAt.None?
    ensures r.users == st.users && r.sessions == st.sessions && r.otps == st.otps
  {
    if caller.role != RequesterRole then st
    else
      var t := Task(
        id := newId, title := title, description := description,
        itemCost := itemCost, serviceFee := serviceFee, totalCost := itemCost + serviceFee,
        deliveryLocation := deliveryLocation,
        requesterId := caller.id, requesterName := caller.name, requesterPhone := caller.phone,
        helperId := None, helperName := None,
        status := Open, paymentStatus := Pending, paymentMethod := None,
        paidAt := None, createdAt := createdAt, acceptedAt := None, completedAt := None);
      assert (st.tasks + [t])[..|st.tasks|] == st.tasks;
      st.(tasks := st.tasks + [t])
  }

  /** `/accept-task`: a helper takes the first task with the id if and only if
      it is still open; it becomes in-progress, assigned to the caller. Every
      other task, and a target that is not open, is left alone, so an assigned
      helper is never replaced. */
  function AcceptTask(st: State, caller: User, taskId: TaskId, acceptedAt: Timestamp): (r: State)
    ensures |r.tasks| == |st.tasks|
    ensures r.users == st.users && r.sessions == st.sessions && r.otps == st.otps
    ensures r != st <==>
              caller.role == HelperRole && TaskIndex(st.tasks, taskId).Some?
              && st.tasks[TaskIndex(st.tasks, taskId).value].status == Open
    ensures r != st ==>
              var i := TaskIndex(st.tasks, taskId).value;
              && (forall j :: 0 <= j < |st.tasks| && j != i ==> r.tasks[j] == st.tasks[j])
              && SameTerms(st.tasks[i], r.tasks[i])
              && r.tasks[i].status == InProgress && r.tasks[i].paymentStatus == st.tasks[i].paymentStatus
              && r.tasks[i].helperId == Some(caller.id) && r.tasks[i].helperName == Some(caller.name)
              && r.tasks[i].acceptedAt == Some(acceptedAt)
              && r.tasks[i].paymentMethod == st.tasks[i].paymentMethod
              && r.tasks[i].paidAt == st.tasks[i].paidAt && r.tasks[i].completedAt == st.tasks[i].completedAt
  {
    if caller.role != HelperRole then st
    else
      match TaskIndex(st.tasks, taskId)
      case None => st
      case Some(i) =>
        var t := st.tasks[i];
        if t.status != Open then st
        else
          var t' := t.(status := InProgress, helperId := Some(caller.id), helperName := Some(caller.name),
                       acceptedAt := Some(acceptedAt));
          assert t' != t;
          st.(tasks := st.tasks[i := t'])
  }

  /** The guard of `GET /payment/:taskId`: the page is shown only to a
      requester, for the first task with the id that the caller owns, and only
      while that task is in progress. */
  function PaymentPage(st: State, caller: User, taskId: TaskId): (r: Option<Task>)
    ensures r.Some? <==>
              caller.role == RequesterRole
              && (exists t :: t in st.tasks && t.id == taskId && t.requesterId == caller.id)
              && Find(st.tasks, (t: Task) => t.id == taskId && t.requesterId == caller.id).value.status == InProgress
    ensures r.Some? ==>
              r.value in st.tasks && r.value.id == taskId && r.value.requesterId == caller.id
              && r.value.status == InProgress
    ensures r.Some? ==>
              exists i :: 0 <= i < |st.tasks| && st.tasks[i] == r.value
                && forall j :: 0 <= j < i ==> !(st.tasks[j].id == taskId && st.tasks[j].requesterId == caller.id)
  {
    if caller.role != RequesterRole then None
    else
      match Find(st.tasks, (t: Task) => t.id == taskId && t.requesterId == caller.id)
      case None => None
      case Some(t) => if t.status != InProgress then None else Some(t)
  }

  /** The route-level condition under which `/process-payment` acts: a
      requester calling, and the first task with the id is theirs. */
  predicate PayableBy(st: State, caller: User, taskId: TaskId)
  {
    && caller.role == RequesterRole
    && TaskIndex(st.tasks, taskId).Some?
    && st.tasks[TaskIndex(st.tasks, taskId).value].requesterId == caller.id
  }

  /** `/process-payment`: when the first task with the id belongs to the
      requester calling, it is marked completed and paid with the submitted
      method, whatever its status was (there is no in-progress check here).
      Costs, requester and helper fields are kept. Otherwise nothing changes. */
  function ProcessPayment(st: State, caller: User, taskId: TaskId, paymentMethod: string,
                          paidAt: Timestamp, completedAt: Timestamp): (r: State)
    ensures |r.tasks| == |st.tasks|
    ensures r.users == st.users && r.sessions == st.sessions && r.otps == st.otps
    ensures !PayableBy(st, caller, taskId) ==> r == st
    ensures PayableBy(st, caller, taskId) ==>
              var i := TaskIndex(st.tasks, taskId).value;
              && (forall j :: 0 <= j < |st.tasks| && j != i ==> r.tasks[j] == st.tasks[j])
              && SameTerms(st.tasks[i], r.tasks[i])
              && r.tasks[i].status == Completed && r.tasks[i].paymentStatus == Paid
              && r.tasks[i].paymentMethod == Some(paymentMethod)
              && r.tasks[i].paidAt == Some(paidAt) && r.tasks[i].completedAt == Some(completedAt)
              && r.tasks[i].helperId == st.tasks[i].helperId && r.tasks[i].helperName == st.tasks[i].helperName
              && r.tasks[i].acceptedAt == st.tasks[i].acceptedAt
  {
    if caller.role != RequesterRole then st
    else
      match TaskIndex(st.tasks, taskId)
      case None => st
      case Some(i) =>
        var t := st.tasks[i];
        if t.requesterId != caller.id then st
        else
          var t' := t.(status := Completed, paymentStatus := Paid, paymentMethod := Some(paymentMethod),
                       paidAt := Some(paidAt), completedAt := Some(completedAt));
          st.(tasks := st.tasks[i := t'])
  }

  // ---------------------------------------------------------------------------
  // Properties relating several transitions

  /** Two helpers racing for one open task, served one after the other: the
      first wins and the second's accept changes nothing. */
  lemma SecondAcceptIsNoOp(st: State, h1: User, h2: User, taskId: TaskId, at1: Timestamp, at2: Timestamp)
    requires h1.role == HelperRole
    requires TaskIndex(st.tasks, taskId).Some? && st.tasks[TaskIndex(st.tasks, taskId).value].status == Open
    ensures var st1 := AcceptTask(st, h1, taskId, at1);
            && st1.tasks[TaskIndex(st.tasks, taskId).value].helperId == Some(h1.id)
            && AcceptTask(st1, h2, taskId, at2) == st1
  {
  }

  /** `/process-payment` completes a task the payment page would refuse to
      show: an open task of the caller's, which no helper has accepted. */
  lemma PaymentSkipsInProgressGuard(st: State, caller: User, taskId: TaskId, paymentMethod: string,
                                    paidAt: Timestamp, completedAt: Timestamp)
    requires PayableBy(st, caller, taskId)
    requires st.tasks[TaskIndex(st.tasks, taskId).value].status == Open
    ensures PaymentPage(st, caller, taskId).None?
    ensures var i := TaskIndex(st.tasks, taskId).value;
            var r := ProcessPayment(st, caller, taskId, paymentMethod, paidAt, completedAt);
            r.tasks[i].status == Completed && r.tasks[i].paymentStatus == Paid
  {
  }

  /** An errand with the form's placeholder costs (80 plus a 40 fee): a
      helper accepts it and the requester pays in cash. */
  lemma ErrandScenario(st: State, requester: User, helper: User)
    requires requester.role == RequesterRole && helper.role == HelperRole
    requires forall t :: t in st.tasks ==> t.id != "t1"
    ensures var s1 := CreateTask(st, requester, "coffee", "one latte", 80, 40, "dorm A", "t1", "c");
            var s2 := AcceptTask(s1, helper, "t1", "a");
            var s3 := ProcessPayment(s2, requester, "t1", "cash", "p", "d");
            var t := s3.tasks[|st.tasks|];
            && t.totalCost == 120 && t.status == Completed && t.paymentStatus == Paid
            && t.paymentMethod == Some("cash") && t.helperId == Some(helper.id)
  {
  }
}
